=== FILE: README.md ===
# Gym site admin and booking rules, in Dafny

A model of the rule-bearing core of a small gym website (React front end over
a hosted document store):

- **Ordered collections.** The admin screens for *plans* and *team members*
  keep records with an integer `order` field in a store (`Collection.Store`,
  a map from document id to document). They render from a snapshot sorted
  ascending by `order` (`Collection.IsSnapshot`). Create puts a record at
  `order = list length`. Update overwrites every field but `id`. Delete
  removes a record without compacting the others.
- **Reorder.** Both screens define the same `handleMoveOrder`; one model
  serves both (`Reorder`). It looks the record up by id, picks the neighbour above or below, and sends
  two independent partial updates that exchange the two `order` values. The
  updates are a sequence of writes run one after the other (`Reorder.Run`).
  This makes the state between the two writes, and the case where the first
  write fails, explicit.
- **Plan drafts.** Blank features (those whose ECMAScript `trim()` is empty)
  are dropped on save (`Text`). The feature list of the plan being edited can
  have an entry added, replaced or removed (`Plans`).
- **Trial-class booking.** The registration page (`Booking`) covers:
  - the rejection of a date whose `getDay()` is 0 (meant as Sunday);
  - the fixed slot tables per weekday;
  - the time reset when the date changes;
  - the submit guard for the `'Aula Experimental'` plan.

Modules: `Wrappers` (Option/Result), `Text`, `Collection`, `Reorder`, `Plans`,
`Team`, `Booking`, one file each.

Inputs the model cannot compute are parameters:
- `online: bool` says whether the store accepted a call. `false` stands for the store rejecting it, for example on a denied permission or an exceeded quota.
- `newId` is the id the store assigns on creation.
- `now` is the registration timestamp.
- `DateInput.day` is the weekday `new Date(value).getDay()` yields, or `None` when that is NaN. An empty value always has `None`.

What the code does with ranks and slots, as the model states it:

- An `order` value is meant to be a unique rank, and the screens treat it as
  one: the team screen shows `order + 1` as the member's position. The code
  can repeat a rank:
  - Deleting any record but the last-ranked one leaves a gap, and the next create at `order = length` then shares the top rank (`Collection.DeleteThenAddSharesTopRank`, `Collection.DeleteThenAddSharesOrder`).
  - Saving an edit form sends the `order` the draft was opened with, so an edit saved after a move puts the old rank back (`Plans.StaleDraftOrderDuplicates`, `Team.StaleDraftOrderDuplicates`).
  - Ranks 0..n-1 stay contiguous under creation at `order = length` (`Collection.AddAtLengthAppends`), under an edit whose draft still holds the stored `order` (`Collection.UpdateInPlaceKeepsSnapshot`), and under a move whose two writes both land (`Reorder.ExchangeKeepsContiguous`, `Reorder.MoveKeepsRanks`).
  - The move buttons cannot undo a repeated rank. A completed move keeps the multiset of ranks (`Reorder.MoveKeepsOrderValues`), and moving a record past a neighbour of the same rank leaves the store unchanged (`Reorder.TiedMoveIsNoOp`).
- `getAvailableTimes` returns the weekday table when `getDay()` reports 0 (`Booking.OfferedIffOpen`). Only `handleDateChange` keeps such a date out of the form.
- `handleMoveOrder` awaits the first write before it sends the second. The update wrappers catch every error and return `{success: false}`, and that result is never inspected. So the second write is sent even when the first failed (`Reorder.FailedFirstWriteStillSendsSecond`).

## Model

| member | source | states |
|---|---|---|
| Text.TrimStart | project/src/components/Admin/PlanManagement.tsx:41 | the result is a suffix of the input that starts with a non-trimmable character, and every character removed is trimmable |
| Text.TrimEnd | project/src/components/Admin/PlanManagement.tsx:41 | the result is a prefix of the input that ends with a non-trimmable character, and every character removed is trimmable |
| Text.Trim | project/src/components/Admin/PlanManagement.tsx:41 | `trim()` returns a result no longer than what remains after the blank prefix is cut, and it neither starts nor ends with a trimmable character |
| Text.TrimCutsBlankSuffix | project/src/components/Admin/PlanManagement.tsx:41 | after the blank prefix is cut, `trim()` keeps a prefix of the rest and what it drops is blank, so the result is the middle of the input between a blank prefix and a blank suffix |
| Text.TrimEmptyIffBlank | project/src/components/Admin/PlanManagement.tsx:41 | `f.trim()` is `''` exactly when every character of `f` is ECMAScript white space or a line terminator |
| Text.FilterBlank | project/src/components/Admin/PlanManagement.tsx:41 | the filtered feature list contains no blank entry and is no longer than the input |
| Text.FilterBlankCounts | project/src/components/Admin/PlanManagement.tsx:65 | every non-blank feature survives with its multiplicity and every blank one is dropped |
| Text.FilterBlankAppend | project/src/components/Admin/PlanManagement.tsx:41 | filtering distributes over concatenation, so the kept features stay in their original relative order |
| Text.FilterBlankIdempotent | project/src/components/Admin/PlanManagement.tsx:65 | filtering an already filtered list changes nothing |
| Text.FilterBlankKeepsAllIff | project/src/components/Admin/PlanManagement.tsx:65 | the filter leaves a list unchanged if and only if the list has no blank entry |
| Text.FilterBlankExample | project/src/components/Admin/PlanManagement.tsx:38-42 | `["A", "", "  ", "B"]` is saved as `["A", "B"]` |
| Collection.Update | project/src/services/plans.ts:33-42 | a partial update succeeds exactly when the store is reachable and the document exists; it changes only that document, sets its `order`, and keeps its fields on an order-only patch |
| Collection.Add | project/src/services/plans.ts:23-31 | a successful create adds exactly one document under the new id and leaves the others alone |
| Collection.Delete | project/src/services/plans.ts:44-53 | deletion removes only the given id, succeeds even for a missing one, and leaves every other document's `order` as it was |
| Collection.SnapshotCount | project/src/services/plans.ts:55-64 | a snapshot has one entry per stored document, so the list length counts the collection |
| Collection.SnapshotAppend | project/src/services/team.ts:53-62 | a new document ranked at or after every existing one appears at the end of the ascending snapshot |
| Collection.AddAtLengthAppends | project/src/components/Admin/PlanManagement.tsx:38-44 | on a contiguous collection, creating at `order = length` appends to the snapshot and keeps ranks 0..n contiguous |
| Collection.UpdateInPlaceKeepsSnapshot | project/src/components/Admin/PlanManagement.tsx:56-66 | saving every field of a listed record under the rank it already holds changes only its entry in the snapshot, and keeps ranks 0..n-1 contiguous when they were |
| Collection.DeleteKeepsSnapshot | project/src/services/plans.ts:44-53 | deleting a listed record leaves exactly the snapshot without that entry, every other record keeping its rank |
| Collection.DeleteThenAddSharesTopRank | project/src/components/Admin/PlanManagement.tsx:38-44 | on a contiguous collection, deleting any record but the last-ranked one and then creating at `order = length` gives the new record the same rank as the last-ranked one |
| Collection.DeleteThenAddSharesOrder | project/src/components/Admin/PlanManagement.tsx:78-90 | after the middle of ranks 0, 1, 2 is deleted, the next create at `order = length` shares rank 2 with an existing record |
| Reorder.FindIndex | project/src/components/Admin/TeamManagement.tsx:88 | the index is the first position holding the id, or -1 exactly when no entry holds it |
| Reorder.MoveOrder | project/src/components/Admin/PlanManagement.tsx:92-102 | no update is issued exactly when the neighbour position falls outside the list; otherwise exactly two |
| Reorder.Run | project/src/components/Admin/PlanManagement.tsx:100-102 | running partial updates never adds or removes a document |
| Reorder.Apply | project/src/services/plans.ts:33-42 | one awaited partial update either applies the patch to that document alone or, when the store rejects it or the document is gone, leaves the store as it was; the key set never changes |
| Reorder.RunTwo | project/src/components/Admin/PlanManagement.tsx:100-102 | the second write applies to whatever the first write left, whether or not the first succeeded |
| Reorder.FindIndexOfEntry | project/src/components/Admin/PlanManagement.tsx:93 | with distinct ids, a snapshot record is found at its own index |
| Reorder.MoveIsNoOpOnlyAtEnds | project/src/components/Admin/PlanManagement.tsx:93-96 | a move issues no update if and only if it is the first record moving up or the last moving down, and then the store is unchanged |
| Reorder.MoveSwapsWithNeighbour | project/src/components/Admin/PlanManagement.tsx:98-102 | after both writes the moved record holds the neighbour's former `order`, the neighbour holds the moved record's, both keep their fields, and no other record changes |
| Reorder.MoveKeepsRanks | project/src/components/Admin/TeamManagement.tsx:93-97 | after both writes, the old snapshot with the two records swapped is a valid ascending snapshot of the new store |
| Reorder.Exchange | project/src/components/Admin/TeamManagement.tsx:93-97 | swapping two records puts each at the other's index while every index keeps its rank, so the sequence and the multiset of `order` values are unchanged |
| Reorder.MoveKeepsOrderValues | project/src/components/Admin/PlanManagement.tsx:98-102 | after a completed move, the new store has a snapshot whose ranks, position by position, are the old snapshot's ranks |
| Reorder.MoveOnStaleList | project/src/components/Admin/PlanManagement.tsx:92-102 | a move made from an out-of-date list gives each of the two still-stored records the rank the list showed for the other, keeps their current fields, and changes nothing else |
| Reorder.TiedMoveIsNoOp | project/src/components/Admin/PlanManagement.tsx:98-102 | moving a record past a neighbour with the same `order` leaves the store exactly as it was |
| Reorder.ExchangeKeepsContiguous | project/src/components/Admin/PlanManagement.tsx:98-102 | a move keeps ranks 0..n-1 contiguous when they were |
| Reorder.ExchangeIsSnapshot | project/src/services/team.ts:54 | exchanging two records' positions while each position keeps its rank gives a valid ascending snapshot of the store with the two ranks swapped |
| Reorder.HalfMoveSharesOrder | project/src/components/Admin/PlanManagement.tsx:100-101 | after only the first write, the moved record and its neighbour share the neighbour's `order` |
| Reorder.FailedFirstWriteStillSendsSecond | project/src/components/Admin/PlanManagement.tsx:100-105 | when the first write fails, the second is still applied: the neighbour takes the moved record's `order` and the moved record keeps it |
| Reorder.MissingIdTargetsFirst | project/src/components/Admin/TeamManagement.tsx:88-91 | for an id absent from the list, "up" is a no-op and "down" targets index 0; when the id is also gone from the store, only the first record's `order` changes |
| Plans.Cleaned | project/src/components/Admin/PlanManagement.tsx:64-65 | the saved fields keep name, price, highlight and special, and carry no blank feature |
| Plans.AddPlan | project/src/components/Admin/PlanManagement.tsx:32-54 | without a draft nothing happens; otherwise a successful save stores the draft at `order = plans.length` with blank features dropped and closes the form; a failed save keeps the form and sets the error |
| Plans.UpdatePlan | project/src/components/Admin/PlanManagement.tsx:56-76 | without a draft id nothing is sent; otherwise, if the plan exists and the store is reachable, exactly that document gets the draft's order and cleaned fields; failing that, the store is unchanged and the error is set; no document is ever created |
| Plans.StaleDraftOrderDuplicates | project/src/components/Admin/PlanManagement.tsx:62-66 | a plan edited, moved up, then saved returns to its old rank and shares it with its former neighbour |
| Plans.AddFeature | project/src/components/Admin/PlanManagement.tsx:108-114 | one `''` is appended (length +1), the earlier entries and every other draft field are unchanged |
| Plans.UpdateFeature | project/src/components/Admin/PlanManagement.tsx:116-124 | only position i changes, to the new value, and the length is unchanged |
| Plans.WithoutIndex | project/src/components/Admin/PlanManagement.tsx:130 | filtering by index drops exactly the entry at i (length -1, others in order), and leaves the list alone for any index outside it |
| Plans.RemoveFeature | project/src/components/Admin/PlanManagement.tsx:126-132 | the draft's features lose exactly entry i, and nothing else in the draft changes |
| Plans.RemoveUndoesAdd | project/src/components/Admin/PlanManagement.tsx:108-132 | removing the entry just added restores the draft |
| Plans.UpdateWithSameValueIsIdentity | project/src/components/Admin/PlanManagement.tsx:116-124 | writing an entry's own value back leaves the draft unchanged |
| Plans.StartNewPlan | project/src/components/Admin/PlanManagement.tsx:134-144 | a new draft has no id, empty name and price, features `['']`, both flags false and `order = plans.length`, and the form is in adding mode |
| Plans.UntouchedNewPlanHasNoFeatures | project/src/components/Admin/PlanManagement.tsx:38-42 | saving an untouched new draft stores an empty plan at `order = plans.length` with no features |
| Team.AddMember | project/src/components/Admin/TeamManagement.tsx:31-52 | a successful save stores the draft's fields unchanged at `order = team.length`; a failed one keeps the form and sets the error; without a draft nothing happens |
| Team.UpdateMember | project/src/components/Admin/TeamManagement.tsx:54-71 | without a draft id nothing is sent; otherwise exactly that existing document gets all draft fields but `id`, or the error is set |
| Team.UpdateWithStoredOrderKeepsRanks | project/src/components/Admin/TeamManagement.tsx:54-71 | saving an edit whose draft holds the stored rank changes only that member's card, and the shown ranks stay 1..n on a contiguous team |
| Team.StaleDraftOrderDuplicates | project/src/components/Admin/TeamManagement.tsx:59-61 | a member edited, moved up, then saved returns to its old rank and shares it with the member it displaced |
| Team.StartNewMember | project/src/components/Admin/TeamManagement.tsx:103-111 | a new draft has no id, empty name, role and image, and `order = team.length` |
| Team.UntouchedNewMemberIsEmpty | project/src/components/Admin/TeamManagement.tsx:103-111 | saving an untouched new draft stores a member with empty name, role and image at `order = team.length` |
| Team.RankIsPosition | project/src/components/Admin/TeamManagement.tsx:324 | on a contiguous team the rank shown (`order + 1`) is the card's one-based position, and no two cards show the same rank |
| Team.AddedMemberRankedLast | project/src/components/Admin/TeamManagement.tsx:37-40 | on a contiguous team a new member is appended to the snapshot and shown with rank equal to the new team size |
| Booking.InitialPage | project/src/components/Registration.tsx:9-21 | the form starts empty, its plan being the selected plan or `''` |
| Booking.IsValidDate | project/src/components/Registration.tsx:34-37 | a date fails exactly when `getDay()` reports 0; an empty value, whose weekday is NaN, passes |
| Booking.AvailableTimes | project/src/components/Registration.tsx:40-53 | an empty date offers nothing, a date whose `getDay()` is 6 offers 6 slots, every other date 14 |
| Booking.LabelInjective | project/src/components/Registration.tsx:47-52 | two hours have the same "HH:00" label exactly when they are the same hour |
| Booking.SlotsAreIncreasingHours | project/src/components/Registration.tsx:46-52 | each table lists the labels of strictly increasing hours, so no slot appears twice |
| Booking.OfferedIffOpen | project/src/components/Registration.tsx:46-52 | for a chosen date, hour h is offered if and only if it is 10-15 when `getDay()` reports 6, or 6-11 or 14-21 for any other reported day, 0 included |
| Booking.OfferedAreOpenHours | project/src/components/Registration.tsx:40-53 | every offered slot is the label of an opening hour |
| Booking.DateChange | project/src/components/Registration.tsx:55-69 | a date whose `getDay()` is 0 leaves the form unchanged and sets the closed-on-Sundays error; any other value sets the preferred date, resets the time to `''` and clears the error, so clearing the input clears both date and time |
| Booking.SelectTime | project/src/components/Registration.tsx:188 | choosing a time changes only the preferred time |
| Booking.Submit | project/src/components/Registration.tsx:71-100 | submission is held back with no save exactly when the plan is `'Aula Experimental'` and the date or time is empty; otherwise the form is saved with the timestamp and the page moves to `/planos`, or the save error is shown |
| Booking.OtherPlansNeverBlocked | project/src/components/Registration.tsx:10 | a page for any other plan is never held back, whatever its date and time |
| Booking.DateThenTimeUnblocks | project/src/components/Registration.tsx:63-77 | a trial class can be submitted after a date and then a time are chosen, and changing the date blocks it again |
| Booking.PlanNeverChanges | project/src/components/Registration.tsx:14-21 | the plan in the form, and in the saved record, is the plan the page was opened for |

## Left out

- Firestore itself (`addDoc`, `updateDoc`, `deleteDoc`, `onSnapshot`). Only its effect on an id-to-document map is modelled. Snapshot ties between equal `order` values may be listed in any order; the store's tie-break by document id is not modelled.
- The live subscription and its unsubscribe on unmount (`useEffect` in both admin screens and in the dashboard), and the `loading` flag. These are asynchronous callback plumbing.
- Authentication (project/src/services/auth.ts). It wraps the hosted auth service.
- JavaScript `Date`: parsing, the 30-day window (enforced only by the date input's `min`/`max`), `YYYY-MM-DD` formatting, and local-versus-UTC weekday. The weekday is an input: the day `getDay()` reports. Because `new Date('YYYY-MM-DD')` is UTC midnight and `getDay()` reads local time, in Brazil's time zones (UTC-2 to UTC-5) the reported day is the calendar day before. So the deployed page rejects Mondays rather than Sundays and offers the Saturday table on Sundays. The model states the rules in reported days and does not model that shift. The `registrationDate` clock is the `now` parameter.
- The delete handlers' `window.confirm` dialog and their error banner. The store effect of deletion is `Collection.Delete`.
- The `catch` blocks around the store wrappers in `handleMoveOrder`, `handleAddPlan`, `handleUpdatePlan`, the member handlers and `handleSubmit`. The wrappers catch every error themselves, so these blocks are unreachable. A failure is instead the `online = false` path.
- Reorder.MoveSwapsWithNeighbour: assumes the snapshot is current, as do MoveKeepsRanks, HalfMoveSharesOrder and FailedFirstWriteStillSendsSecond. A move from an out-of-date list is covered only by `Reorder.MoveOnStaleList`, one move at a time. Two moves racing on one list (two admins, or a second click before the list refreshes) are sequences of such writes, and no lemma states what their interleavings leave.
- Plans.UpdateFeature: requires an index inside the list. The form only passes indices of rendered entries. An out-of-range JavaScript assignment, which would create holes, is not modelled.
- The plain field setters of the edit forms (name, price, role, image, highlight, special, and the registration's name, email and phone), the `isAdding` button disabling, the `isSubmitting` spinner, and the browser's `required` checks. These are UI bindings with no rule beyond a field assignment.
- All rendering, routing and static content: Plans.tsx, Services.tsx, Contact.tsx, Navbar.tsx, About.tsx, Hero.tsx, App.tsx, Dashboard.tsx.

=== FILE: booking.dfy ===
/**
 * The registration page's booking rules for a trial class: the Sunday
 * rejection (of reported day 0, see Weekday), the time-slot tables per
 * weekday, the time reset when the date changes, and the guard that holds
 * back a trial-class submission without a date and time.
 */
module Booking {
  import opened Wrappers

  /** A day of the week as `Date.prototype.getDay` reports it: 0 is meant
      as Sunday and 6 as Saturday. The browser parses `YYYY-MM-DD` as UTC
      midnight and `getDay` reads local time, so west of UTC the reported
      day is the calendar day before. */
  type Weekday = d: int | 0 <= d <= 6

  /** The date input's value together with the weekday `getDay` reports
      for `new Date(value)`; `None` when that is NaN (an empty or unparsable
      value). */
  datatype DateValue = DateValue(text: string, day: Option<Weekday>)

  /** The values a date input delivers: `new Date('')` is always NaN, so an
      empty value never comes with a weekday. */
  type DateInput = d: DateValue | d.text == "" ==> d.day.None? witness DateValue("", None)

  /** The form fields, all strings; the date and time are empty until chosen. */
  datatype Form = Form(
    name: string, email: string, phone: string, plan: string,
    preferredDate: string, preferredTime: string)

  /** The page: the plan it was opened for, the form, the error banner. */
  datatype Page = Page(selectedPlan: string, form: Form, error: Option<string>)

  /** What `saveRegistration` stores: the form stamped with the time of saving. */
  datatype Registration = Registration(form: Form, registrationDate: int)

  /** What pressing the submit button leads to. */
  datatype Submission =
    | Blocked(page: Page)
    | NotSaved(page: Page)
    | Saved(record: Registration, route: string, notice: string)

  const TrialClass := "Aula Experimental"
  const SundayClosed := "Desculpe, não abrimos aos domingos. Por favor, selecione outro dia."
  const ScheduleMissing := "Por favor, selecione a data e horário para sua aula experimental."
  const SaveFailed := "Erro ao salvar inscrição. Por favor, tente novamente."
  const SavedNotice := "Inscrição realizada com sucesso! Entraremos em contato em breve."
  const PlansRoute := "/planos"

  /** The page as first rendered, for `location.state?.selectedPlan || ''`. */
  function InitialPage(selected: Option<string>): (p: Page)
    ensures p.selectedPlan == p.form.plan == (if selected.Some? then selected.value else "")
    ensures p.form.name == p.form.email == p.form.phone == ""
    ensures p.form.preferredDate == p.form.preferredTime == "" && p.error.None?
  {
    var plan := if selected.Some? then selected.value else "";
    Page(plan, Form("", "", "", plan, "", ""), None)
  }

  /** `isValidDate`: every reported day but 0 (Sunday); a NaN weekday is not 0, so it
      passes. */
  function IsValidDate(d: DateInput): (valid: bool)
    ensures d.text == "" ==> valid
    ensures !valid <==> d.day == Some(0)
  {
    d.day != Some(0)
  }

  /** `getAvailableTimes`: nothing for an empty date, the Saturday table when
      day 6 is reported, and the weekday table for every other day, day 0 and an
      unparsable date included. */
  function AvailableTimes(d: DateInput): (r: seq<string>)
    ensures d.text == "" ==> r == []
    ensures d.text != "" && d.day == Some(6) ==> |r| == 6
    ensures d.text != "" && d.day != Some(6) ==> |r| == 14
  {
    if d.text == "" then []
    else if d.day == Some(6) then ["10:00", "11:00", "12:00", "13:00", "14:00", "15:00"]
    else ["06:00", "07:00", "08:00", "09:00", "10:00", "11:00",
          "14:00", "15:00", "16:00", "17:00", "18:00", "19:00", "20:00", "21:00"]
  }

  /** The opening hours, stated independently of the tables, by reported
      day: Saturdays (6) 10:00 to 15:00; other days 06:00 to 11:00 and 14:00 to 21:00. */
  predicate OpenAt(day: Option<Weekday>, h: nat) {
    if day == Some(6) then 10 <= h <= 15 else (6 <= h <= 11 || 14 <= h <= 21)
  }

  function Digit(n: nat): char
    requires n < 10
  {
    ('0' as int + n) as char
  }

  /** The slot label "HH:00" for an hour of the day. */
  function Label(h: nat): string
    requires h < 24
  {
    [Digit(h / 10), Digit(h % 10), ':', '0', '0']
  }

  /** Different hours have different labels. */
  lemma LabelInjective(a: nat, b: nat)
    requires a < 24 && b < 24
    ensures Label(a) == Label(b) <==> a == b
  {
  }

  /** The hours behind each table, in the order listed. */
  function SlotHours(d: DateInput): seq<nat> {
    if d.text == "" then []
    else if d.day == Some(6) then [10, 11, 12, 13, 14, 15]
    else [6, 7, 8, 9, 10, 11, 14, 15, 16, 17, 18, 19, 20, 21]
  }

  /** Each table lists the labels of strictly increasing hours, so no slot
      appears twice. */
  lemma SlotsAreIncreasingHours(d: DateInput)
    ensures var hs := SlotHours(d);
            && |AvailableTimes(d)| == |hs|
            && (forall i :: 0 <= i < |hs| ==> hs[i] < 24 && AvailableTimes(d)[i] == Label(hs[i]))
            && (forall i, j :: 0 <= i < j < |hs| ==> hs[i] < hs[j])
    ensures forall i, j :: 0 <= i < j < |AvailableTimes(d)| ==> AvailableTimes(d)[i] != AvailableTimes(d)[j]
  {
    var hs, ts := SlotHours(d), AvailableTimes(d);
    TablesAreLabels(d);
    HoursIncrease(d);
    forall i, j | 0 <= i < j < |ts| ensures ts[i] != ts[j] {
      LabelInjective(hs[i], hs[j]);
    }
  }

  lemma TablesAreLabels(d: DateInput)
    ensures var hs := SlotHours(d);
            && |AvailableTimes(d)| == |hs|
            && (forall i :: 0 <= i < |hs| ==> hs[i] < 24 && AvailableTimes(d)[i] == Label(hs[i]))
  {
    if d.text == "" {
    } else if d.day == Some(6) {
      SaturdayLabels();
    } else {
      WeekdayLabels();
    }
  }

  lemma SaturdayLabels()
    ensures ["10:00", "11:00", "12:00", "13:00", "14:00", "15:00"]
            == [Label(10), Label(11), Label(12), Label(13), Label(14), Label(15)]
  {
  }

  lemma WeekdayLabels()
    ensures ["06:00", "07:00", "08:00", "09:00", "10:00", "11:00"]
            == [Label(6), Label(7), Label(8), Label(9), Label(10), Label(11)]
    ensures ["14:00", "15:00", "16:00", "17:00", "18:00", "19:00", "20:00", "21:00"]
            == [Label(14), Label(15), Label(16), Label(17), Label(18), Label(19), Label(20), Label(21)]
  {
  }

  lemma HoursIncrease(d: DateInput)
    ensures var hs := SlotHours(d);
            forall i, j :: 0 <= i < j < |hs| ==> hs[i] < hs[j]
  {
  }

  /** For a chosen date, the hour h is offered exactly when the gym is open
      then: reported day 6 10:00 to 15:00, every other day (0 too) 06:00 to
      11:00 and 14:00 to 21:00, so 12:00 and 13:00 only on day 6. */
  lemma OfferedIffOpen(d: DateInput, h: nat)
    requires d.text != "" && h < 24
    ensures Label(h) in AvailableTimes(d) <==> OpenAt(d.day, h)
  {
  }

  /** Every offered slot is the label of an opening hour. */
  lemma OfferedAreOpenHours(d: DateInput, t: string)
    requires t in AvailableTimes(d)
    ensures exists h: nat :: h < 24 && t == Label(h) && OpenAt(d.day, h)
  {
    SlotsAreIncreasingHours(d);
    var i :| 0 <= i < |AvailableTimes(d)| && AvailableTimes(d)[i] == t;
    var h := SlotHours(d)[i];
    OfferedIffOpen(d, h);
  }

  /** `handleDateChange`: reported day 0 leaves the form alone and raises the
      closed-on-Sundays banner; any other value becomes the preferred date,
      clears the preferred time and clears the banner. Clearing the input
      (an empty value) clears both the date and the time. */
  function DateChange(p: Page, d: DateInput): (r: Page)
    ensures r.selectedPlan == p.selectedPlan
    ensures d.day == Some(0) ==> r.form == p.form && r.error == Some(SundayClosed)
    ensures d.day != Some(0) ==>
      && r.form == p.form.(preferredDate := d.text, preferredTime := "")
      && r.error.None?
    ensures d.text == "" ==>
      r.form.preferredDate == "" && r.form.preferredTime == "" && r.error.None?
  {
    if !IsValidDate(d) then p.(error := Some(SundayClosed))
    else Page(p.selectedPlan, p.form.(preferredDate := d.text, preferredTime := ""), None)
  }

  /** Choosing an option of the time select. */
  function SelectTime(p: Page, t: string): (r: Page)
    ensures r.form == p.form.(preferredTime := t)
    ensures r.selectedPlan == p.selectedPlan && r.error == p.error
  {
    p.(form := p.form.(preferredTime := t))
  }

  /** The guard of `handleSubmit`. */
  predicate MissingSchedule(p: Page) {
    p.selectedPlan == TrialClass && (p.form.preferredDate == "" || p.form.preferredTime == "")
  }

  /** `handleSubmit`: a trial class without a date or a time is held back
      with a banner and nothing is saved; otherwise the form is saved with
      the current time (`now`) and the visitor is sent to the plans page,
      or the page shows the save error. */
  function Submit(p: Page, now: int, online: bool): (r: Submission)
    ensures r.Blocked? <==> p.selectedPlan == TrialClass &&
                            (p.form.preferredDate == "" || p.form.preferredTime == "")
    ensures r.Blocked? ==> r.page == p.(error := Some(ScheduleMissing))
    ensures r.Saved? <==> !r.Blocked? && online
    ensures r.Saved? ==> r.record == Registration(p.form, now) &&
                         r.route == PlansRoute && r.notice == SavedNotice
    ensures r.NotSaved? ==> r.page == p.(error := Some(SaveFailed))
  {
    if MissingSchedule(p) then Blocked(p.(error := Some(ScheduleMissing)))
    else if online then Saved(Registration(p.form, now), PlansRoute, SavedNotice)
    else NotSaved(p.(error := Some(SaveFailed)))
  }

  /** A page opened for any plan other than the trial class is never held
      back, whatever its date and time fields hold. */
  lemma OtherPlansNeverBlocked(p: Page, now: int, online: bool)
    requires p.selectedPlan != TrialClass
    ensures !Submit(p, now, online).Blocked?
  {
  }

  /** A trial-class booking goes through once a date whose reported day is
      not 0 and then a time have been picked, and a later change of date blocks it again
      until a time is picked anew. */
  lemma DateThenTimeUnblocks(p: Page, d: DateInput, d2: DateInput, t: string, now: int)
    requires p.selectedPlan == TrialClass
    requires d.text != "" && d.day != Some(0) && d2.day != Some(0) && t != ""
    ensures Submit(DateChange(p, d), now, true).Blocked?
    ensures Submit(SelectTime(DateChange(p, d), t), now, true).Saved?
    ensures Submit(DateChange(SelectTime(DateChange(p, d), t), d2), now, true).Blocked?
  {
  }

  /** The form's plan is the plan the page was opened for, and no step
      changes it. */
  lemma PlanNeverChanges(selected: Option<string>, d: DateInput, t: string, now: int)
    ensures var p := InitialPage(selected);
            && DateChange(p, d).form.plan == p.selectedPlan
            && SelectTime(p, t).form.plan == p.selectedPlan
            && (Submit(p, now, true).Saved? ==> Submit(p, now, true).record.form.plan == p.selectedPlan)
  {
  }
}

=== FILE: collection.dfy ===
/**
 * The ordered collections behind the admin screens ("plans" and "team"):
 * a remote document store holding records with an integer `order` field,
 * and the ascending-`order` snapshot the screens render from.
 * P is the record-specific part (plan or team-member fields).
 */
module Collection {
  import opened Wrappers

  /** A document id, assigned by the store when a record is created; the
      store never assigns an empty one, and the screens treat `''` as no id. */
  type Id = s: string | s != "" witness "id"

  /** A stored document: its rank and its record-specific fields. */
  datatype Doc<P> = Doc(order: int, fields: P)

  /** One collection of the store. */
  type Store<P> = map<Id, Doc<P>>

  /** One record of a snapshot: `{ id: doc.id, ...doc.data() }`. */
  datatype Entry<P> = Entry(id: Id, order: int, fields: P) {
    function AsDoc(): Doc<P> { Doc(order, fields) }
  }

  /** A partial update: only `order`, or every field except `id`. */
  datatype Patch<P> = SetOrder(order: int) | SetAll(order: int, fields: P)

  /** Why a store call failed: the target document is gone, or the store
      rejected the call (permission denied, quota exceeded). */
  datatype StoreError = NotFound | Unavailable

  /** A record being edited on an admin screen; `id` is absent until saved. */
  datatype Draft<P> = Draft(id: Option<Id>, order: int, fields: P)

  /** The state an admin screen keeps besides its snapshot. */
  datatype Screen<P> = Screen(editing: Option<Draft<P>>, adding: bool, error: Option<string>)

  /** What a screen handler leaves behind: the screen state and the store. */
  datatype Effect<P> = Effect(screen: Screen<P>, store: Store<P>)

  function Patched<P>(d: Doc<P>, p: Patch<P>): Doc<P> {
    match p
    case SetOrder(o) => d.(order := o)
    case SetAll(o, f) => Doc(o, f)
  }

  /** `updateDoc`: merges the patch into an existing document; fails on a
      missing document or an unreachable store. */
  function Update<P>(s: Store<P>, id: Id, p: Patch<P>, online: bool): (r: Result<Store<P>, StoreError>)
    ensures r.Success? <==> online && id in s
    ensures !online ==> r == Failure(Unavailable)
    ensures online && id !in s ==> r == Failure(NotFound)
    ensures r.Success? ==> r.value.Keys == s.Keys && r.value[id].order == p.order
    ensures r.Success? && p.SetOrder? ==> r.value[id].fields == s[id].fields
    ensures r.Success? && p.SetAll? ==> r.value[id].fields == p.fields
    ensures r.Success? ==> forall k :: k in s && k != id ==> r.value[k] == s[k]
  {
    if !online then Failure(Unavailable)
    else if id !in s then Failure(NotFound)
    else Success(s[id := Patched(s[id], p)])
  }

  /** `addDoc`: stores a new document under an id the store picks newId. */
  function Add<P>(s: Store<P>, newId: Id, d: Doc<P>, online: bool): (r: Result<Store<P>, StoreError>)
    requires newId !in s
    ensures r.Success? <==> online
    ensures r.Success? ==> r.value.Keys == s.Keys + {newId} && |r.value| == |s| + 1
    ensures r.Success? ==> r.value[newId] == d && forall k :: k in s ==> r.value[k] == s[k]
  {
    if online then Success(s[newId := d]) else Failure(Unavailable)
  }

  /** `deleteDoc`: removes a document; deleting a missing one still succeeds.
      The other documents keep their `order`: nothing is compacted. */
  function Delete<P>(s: Store<P>, id: Id, online: bool): (r: Result<Store<P>, StoreError>)
    ensures r.Success? <==> online
    ensures r.Success? ==> r.value.Keys == s.Keys - {id}
    ensures r.Success? ==> forall k :: k in r.value ==> r.value[k] == s[k]
  {
    if online then Success(s - {id}) else Failure(Unavailable)
  }

  function IdSet<P>(snap: seq<Entry<P>>): set<Id> {
    set i | 0 <= i < |snap| :: snap[i].id
  }

  function Orders<P>(snap: seq<Entry<P>>): (r: seq<int>)
    ensures |r| == |snap| && forall i :: 0 <= i < |snap| ==> r[i] == snap[i].order
  {
    seq(|snap|, i requires 0 <= i < |snap| => snap[i].order)
  }

  predicate DistinctIds<P>(snap: seq<Entry<P>>) {
    forall i, j :: 0 <= i < j < |snap| ==> snap[i].id != snap[j].id
  }

  predicate SortedByOrder<P>(snap: seq<Entry<P>>) {
    forall i, j :: 0 <= i < j < |snap| ==> snap[i].order <= snap[j].order
  }

  /** `snap` is what `query(..., orderBy("order", "asc"))` delivers for `s`:
      every document exactly once, ascending by `order` (ties in any order). */
  predicate IsSnapshot<P(==)>(s: Store<P>, snap: seq<Entry<P>>) {
    && DistinctIds(snap)
    && SortedByOrder(snap)
    && IdSet(snap) == s.Keys
    && forall i :: 0 <= i < |snap| ==> snap[i].id in s && s[snap[i].id] == snap[i].AsDoc()
  }

  /** The ranks are exactly 0, 1, ..., n-1: what creation at `order = length`
      establishes on an initially empty collection. */
  predicate Contiguous<P>(snap: seq<Entry<P>>) {
    forall i :: 0 <= i < |snap| ==> snap[i].order == i
  }

  lemma {:induction false} DistinctIdCount<P>(snap: seq<Entry<P>>)
    requires DistinctIds(snap)
    ensures |IdSet(snap)| == |snap|
    decreases |snap|
  {
    if snap != [] {
      var rest := snap[..|snap| - 1];
      DistinctIdCount(rest);
      assert IdSet(snap) == IdSet(rest) + {snap[|snap| - 1].id} by {
        forall x | x in IdSet(snap) ensures x in IdSet(rest) + {snap[|snap| - 1].id} {
          var i :| 0 <= i < |snap| && snap[i].id == x;
          if i < |snap| - 1 { assert rest[i].id == x; }
        }
      }
      assert snap[|snap| - 1].id !in IdSet(rest);
    }
  }

  /** The snapshot has one entry per stored document, so `plans.length` and
      `team.length` count the collection. */
  lemma SnapshotCount<P>(s: Store<P>, snap: seq<Entry<P>>)
    requires IsSnapshot(s, snap)
    ensures |snap| == |s|
  {
    DistinctIdCount(snap);
  }

  /** Appending an entry whose rank is at least every existing rank to the
      snapshot lists the store with that document inserted. */
  lemma SnapshotAppend<P>(s: Store<P>, snap: seq<Entry<P>>, e: Entry<P>)
    requires IsSnapshot(s, snap)
    requires e.id !in s
    requires forall i :: 0 <= i < |snap| ==> snap[i].order <= e.order
    ensures IsSnapshot(s[e.id := e.AsDoc()], snap + [e])
  {
    var s' := s[e.id := e.AsDoc()];
    var snap' := snap + [e];
    assert IdSet(snap') == IdSet(snap) + {e.id} by {
      forall x | x in IdSet(snap') ensures x in IdSet(snap) + {e.id} {
        var i :| 0 <= i < |snap'| && snap'[i].id == x;
        if i < |snap| { assert snap[i].id == x; }
      }
      forall x | x in IdSet(snap) ensures x in IdSet(snap') {
        var i :| 0 <= i < |snap| && snap[i].id == x;
        assert snap'[i].id == x;
      }
      assert snap'[|snap|].id == e.id;
    }
    assert DistinctIds(snap') by {
      forall i, j | 0 <= i < j < |snap'| ensures snap'[i].id != snap'[j].id {
        if j == |snap| { assert snap[i].id in IdSet(snap); }
      }
    }
    forall i | 0 <= i < |snap'|
      ensures snap'[i].id in s' && s'[snap'[i].id] == snap'[i].AsDoc()
    {
      if i < |snap| { assert snap'[i] == snap[i]; }
    }
  }

  /** On a contiguous collection, creating a record at `order = length`
      appends it to the snapshot and keeps the ranks contiguous. */
  lemma AddAtLengthAppends<P>(s: Store<P>, snap: seq<Entry<P>>, newId: Id, f: P)
    requires IsSnapshot(s, snap) && Contiguous(snap)
    requires newId !in s
    ensures Add(s, newId, Doc(|snap|, f), true).Success?
    ensures IsSnapshot(Add(s, newId, Doc(|snap|, f), true).value, snap + [Entry(newId, |snap|, f)])
    ensures Contiguous(snap + [Entry(newId, |snap|, f)])
  {
    var e := Entry(newId, |snap|, f);
    SnapshotAppend(s, snap, e);
    assert Add(s, newId, Doc(|snap|, f), true).value == s[e.id := e.AsDoc()];
    forall i | 0 <= i < |snap + [e]| ensures (snap + [e])[i].order == i {
      if i < |snap| { assert (snap + [e])[i] == snap[i]; }
    }
  }

  /** Saving a whole record under the rank it already holds changes only
      that record's entry in the snapshot: the list keeps its order and, on
      a contiguous collection, its contiguity. */
  lemma UpdateInPlaceKeepsSnapshot<P>(s: Store<P>, snap: seq<Entry<P>>, i: nat, f: P)
    requires IsSnapshot(s, snap) && i < |snap|
    ensures Update(s, snap[i].id, SetAll(snap[i].order, f), true).Success?
    ensures var snap' := snap[i := Entry(snap[i].id, snap[i].order, f)];
            && IsSnapshot(Update(s, snap[i].id, SetAll(snap[i].order, f), true).value, snap')
            && (Contiguous(snap) ==> Contiguous(snap'))
  {
    var snap' := snap[i := Entry(snap[i].id, snap[i].order, f)];
    ReplaceKeepsShape(snap, i, f);
    ReplaceMirrors(s, snap, i, f, s[snap[i].id := Doc(snap[i].order, f)]);
  }

  lemma ReplaceKeepsShape<P>(snap: seq<Entry<P>>, i: nat, f: P)
    requires DistinctIds(snap) && SortedByOrder(snap) && i < |snap|
    ensures var snap' := snap[i := Entry(snap[i].id, snap[i].order, f)];
            && IdSet(snap') == IdSet(snap) && DistinctIds(snap') && SortedByOrder(snap')
            && (Contiguous(snap) ==> Contiguous(snap'))
  {
    var snap' := snap[i := Entry(snap[i].id, snap[i].order, f)];
    assert IdSet(snap') == IdSet(snap) by {
      forall x | x in IdSet(snap) ensures x in IdSet(snap') {
        var k :| 0 <= k < |snap| && snap[k].id == x;
        assert snap'[k].id == x;
      }
    }
  }

  lemma ReplaceMirrors<P>(s: Store<P>, snap: seq<Entry<P>>, i: nat, f: P, s': Store<P>)
    requires IsSnapshot(s, snap) && i < |snap|
    requires s' == s[snap[i].id := Doc(snap[i].order, f)]
    ensures var snap' := snap[i := Entry(snap[i].id, snap[i].order, f)];
            forall k :: 0 <= k < |snap'| ==> snap'[k].id in s' && s'[snap'[k].id] == snap'[k].AsDoc()
  {
    var snap' := snap[i := Entry(snap[i].id, snap[i].order, f)];
    forall k | 0 <= k < |snap'| ensures snap'[k].id in s' && s'[snap'[k].id] == snap'[k].AsDoc() {
      if k != i { assert snap[k].id != snap[i].id; }
    }
  }

  /** Deleting a listed record removes exactly its entry from the snapshot:
      nothing is compacted, so every remaining record keeps its rank. */
  lemma DeleteKeepsSnapshot<P>(s: Store<P>, snap: seq<Entry<P>>, i: nat)
    requires IsSnapshot(s, snap) && i < |snap|
    ensures Delete(s, snap[i].id, true).Success?
    ensures IsSnapshot(Delete(s, snap[i].id, true).value, snap[..i] + snap[i + 1..])
  {
    RemoveIdSet(s, snap, i);
    RemoveKeepsOrder(snap, i);
    RemoveMirrors(s, snap, i);
  }

  /** Position k of the snapshot without entry i. */
  function Skip(i: nat, k: nat): nat {
    if k < i then k else k + 1
  }

  lemma RemoveIdSet<P>(s: Store<P>, snap: seq<Entry<P>>, i: nat)
    requires IsSnapshot(s, snap) && i < |snap|
    ensures IdSet(snap[..i] + snap[i + 1..]) == s.Keys - {snap[i].id}
  {
    var rest := snap[..i] + snap[i + 1..];
    forall x | x in IdSet(rest) ensures x in s.Keys - {snap[i].id} {
      var k :| 0 <= k < |rest| && rest[k].id == x;
      assert rest[k] == snap[Skip(i, k)];
    }
    forall x | x in s.Keys - {snap[i].id} ensures x in IdSet(rest) {
      assert x in IdSet(snap);
      var k :| 0 <= k < |snap| && snap[k].id == x;
      if k < i { assert rest[k].id == x; } else { assert rest[k - 1].id == x; }
    }
  }

  lemma RemoveKeepsOrder<P>(snap: seq<Entry<P>>, i: nat)
    requires DistinctIds(snap) && SortedByOrder(snap) && i < |snap|
    ensures DistinctIds(snap[..i] + snap[i + 1..]) && SortedByOrder(snap[..i] + snap[i + 1..])
  {
    var rest := snap[..i] + snap[i + 1..];
    forall a, b | 0 <= a < b < |rest|
      ensures rest[a].id != rest[b].id && rest[a].order <= rest[b].order
    {
      assert rest[a] == snap[Skip(i, a)] && rest[b] == snap[Skip(i, b)];
    }
  }

  lemma RemoveMirrors<P>(s: Store<P>, snap: seq<Entry<P>>, i: nat)
    requires IsSnapshot(s, snap) && i < |snap|
    ensures var rest, s' := snap[..i] + snap[i + 1..], s - {snap[i].id};
            forall k :: 0 <= k < |rest| ==> rest[k].id in s' && s'[rest[k].id] == rest[k].AsDoc()
  {
    var rest, s' := snap[..i] + snap[i + 1..], s - {snap[i].id};
    forall k | 0 <= k < |rest| ensures rest[k].id in s' && s'[rest[k].id] == rest[k].AsDoc() {
      assert rest[k] == snap[Skip(i, k)];
    }
  }

  /** On a contiguous collection, deleting any record but the last-ranked
      one leaves a gap, and the next create at `order = length` then shares
      the top rank with the last-ranked record. */
  lemma DeleteThenAddSharesTopRank<P>(s: Store<P>, snap: seq<Entry<P>>, i: nat, newId: Id, f: P)
    requires IsSnapshot(s, snap) && Contiguous(snap) && i < |snap| - 1 && newId !in s
    ensures var s1 := Delete(s, snap[i].id, true).value;
            && |s1| == |snap| - 1
            && var s2 := Add(s1, newId, Doc(|s1|, f), true).value;
               s2[snap[|snap| - 1].id].order == s2[newId].order == |snap| - 1
  {
    DeleteKeepsSnapshot(s, snap, i);
    SnapshotCount(Delete(s, snap[i].id, true).value, snap[..i] + snap[i + 1..]);
  }

  /** Deleting a record leaves a gap: with ranks 0, 1, 2, deleting rank 1 and
      then creating a record at `order = length` (now 2, see SnapshotCount)
      gives two records sharing rank 2. */
  lemma DeleteThenAddSharesOrder<P>(f: P, g: P, h: P, n: P)
    ensures var s := map["a" := Doc(0, f), "b" := Doc(1, g), "c" := Doc(2, h)];
            var s1 := Delete(s, "b", true).value;
            var s2 := Add(s1, "d", Doc(|s1|, n), true).value;
            s2["c"].order == s2["d"].order == 2
  {
  }
}

=== FILE: plans.dfy ===
/**
 * The plan management screen: creating and updating plans (with the blank
 * feature filter), editing the feature list of the draft, and starting a
 * new draft. Reordering is the shared `Reorder.MoveOrder`.
 */
module Plans {
  import opened Wrappers
  import opened Text
  import opened Collection
  import opened Reorder

  /** A plan's fields besides `id` and `order`. */
  datatype PlanFields = PlanFields(
    name: string, price: string, features: seq<string>, highlight: bool, special: bool)

  const SaveFailed := "Erro ao salvar o plano"
  const UpdateFailed := "Erro ao atualizar o plano"

  /** The fields as they are sent to the store: blank features dropped,
      the others kept with their multiplicity and relative order
      (FilterBlankCounts, FilterBlankAppend). */
  function Cleaned(f: PlanFields): (g: PlanFields)
    ensures g.name == f.name && g.price == f.price
    ensures g.highlight == f.highlight && g.special == f.special
    ensures g.features == FilterBlank(f.features)
    ensures NoBlank(g.features) && |g.features| <= |f.features|
  {
    f.(features := FilterBlank(f.features))
  }

  /** `handleAddPlan`: saves the draft as a new plan ranked last
      (`order = plans.length`, whatever the draft said) with its blank
      features dropped. On success the form closes; on failure it stays
      open with an error. */
  function AddPlan(sc: Screen<PlanFields>, plans: seq<Entry<PlanFields>>,
                   s: Store<PlanFields>, newId: Id, online: bool): (r: Effect<PlanFields>)
    requires newId !in s
    ensures sc.editing.None? ==> r == Effect(sc, s)
    ensures sc.editing.Some? && online ==>
      && r.store.Keys == s.Keys + {newId}
      && (forall k :: k in s ==> r.store[k] == s[k])
      && r.store[newId] == Doc(|plans|, Cleaned(sc.editing.value.fields))
      && r.screen == Screen(None, false, None)
    ensures sc.editing.Some? && !online ==> r == Effect(sc.(error := Some(SaveFailed)), s)
  {
    match sc.editing
    case None => Effect(sc, s)
    case Some(d) =>
      match Add(s, newId, Doc(|plans|, Cleaned(d.fields)), online)
      case Success(s') => Effect(Screen(None, false, None), s')
      case Failure(_) => Effect(sc.(error := Some(SaveFailed)), s)
  }

  /** `handleUpdatePlan`: without a draft id nothing is sent. Otherwise every
      field but `id` is written to that document, features cleaned; it fails
      when the plan is gone or the store is unreachable. */
  function UpdatePlan(sc: Screen<PlanFields>, s: Store<PlanFields>, online: bool): (r: Effect<PlanFields>)
    ensures sc.editing.None? || sc.editing.value.id.None? ==> r == Effect(sc, s)
    ensures r.store.Keys == s.Keys
    ensures sc.editing.Some? && sc.editing.value.id.Some? ==>
      var d := sc.editing.value;
      if online && d.id.value in s then
        && r.store[d.id.value] == Doc(d.order, Cleaned(d.fields))
        && (forall k :: k in s && k != d.id.value ==> r.store[k] == s[k])
        && r.screen == sc.(editing := None, error := None)
      else
        r == Effect(sc.(error := Some(UpdateFailed)), s)
  {
    match sc.editing
    case None => Effect(sc, s)
    case Some(d) =>
      match d.id
      case None => Effect(sc, s)
      case Some(id) =>
        match Update(s, id, SetAll(d.order, Cleaned(d.fields)), online)
        case Success(s') => Effect(sc.(editing := None, error := None), s')
        case Failure(_) => Effect(sc.(error := Some(UpdateFailed)), s)
  }

  /** The update sends the `order` the draft was opened with. If the plan is
      moved while its form is open, saving the form puts the old rank back
      and the plan shares it with its former neighbour. */
  lemma StaleDraftOrderDuplicates(s: Store<PlanFields>, plans: seq<Entry<PlanFields>>)
    requires IsSnapshot(s, plans) && |plans| >= 2
    ensures var moved := Run(s, MoveOrder(plans, plans[1], Up), [true, true]);
            var draft := Draft(Some(plans[1].id), plans[1].order, plans[1].fields);
            var after := UpdatePlan(Screen(Some(draft), false, None), moved, true).store;
            after[plans[0].id].order == after[plans[1].id].order == plans[1].order
  {
    MoveSwapsWithNeighbour(s, plans, 1, Up);
  }

  /** Features after one more (empty) entry, `[...features, '']`. */
  function AddFeature(e: Option<Draft<PlanFields>>): (r: Option<Draft<PlanFields>>)
    ensures r.Some? <==> e.Some?
    ensures e.Some? ==>
      var f, g := e.value.fields.features, r.value.fields.features;
      && |g| == |f| + 1 && g[..|f|] == f && g[|f|] == ""
      && r.value == e.value.(fields := e.value.fields.(features := g))
  {
    match e
    case None => None
    case Some(d) => Some(d.(fields := d.fields.(features := d.fields.features + [""])))
  }

  /** `newFeatures[index] = value` on a copy of the features. The form only
      offers indices of existing entries. */
  function UpdateFeature(e: Option<Draft<PlanFields>>, i: int, v: string): (r: Option<Draft<PlanFields>>)
    requires e.Some? ==> 0 <= i < |e.value.fields.features|
    ensures r.Some? <==> e.Some?
    ensures e.Some? ==>
      var f, g := e.value.fields.features, r.value.fields.features;
      && |g| == |f| && g[i] == v
      && (forall k :: 0 <= k < |f| && k != i ==> g[k] == f[k])
      && r.value == e.value.(fields := e.value.fields.(features := g))
  {
    match e
    case None => None
    case Some(d) => Some(d.(fields := d.fields.(features := d.fields.features[i := v])))
  }

  /** `features.filter((_, i) => i !== index)`: keeps every entry whose
      position differs from `i`. */
  function WithoutIndex(fs: seq<string>, i: int): (r: seq<string>)
    ensures 0 <= i < |fs| ==>
      && |r| == |fs| - 1
      && (forall k :: 0 <= k < i ==> r[k] == fs[k])
      && (forall k :: i <= k < |r| ==> r[k] == fs[k + 1])
    ensures !(0 <= i < |fs|) ==> r == fs
    decreases |fs|
  {
    if fs == [] then []
    else (if i == 0 then [] else [fs[0]]) + WithoutIndex(fs[1..], i - 1)
  }

  /** `handleRemoveFeature`: drops the entry at `i`; any other index leaves
      the list as it is. */
  function RemoveFeature(e: Option<Draft<PlanFields>>, i: int): (r: Option<Draft<PlanFields>>)
    ensures r.Some? <==> e.Some?
    ensures e.Some? ==>
      var f, g := e.value.fields.features, r.value.fields.features;
      && (0 <= i < |f| ==> g == f[..i] + f[i + 1..])
      && (!(0 <= i < |f|) ==> g == f)
      && r.value == e.value.(fields := e.value.fields.(features := g))
  {
    match e
    case None => None
    case Some(d) => Some(d.(fields := d.fields.(features := WithoutIndex(d.fields.features, i))))
  }

  /** Removing the entry just added gives back the draft. */
  lemma RemoveUndoesAdd(e: Option<Draft<PlanFields>>)
    requires e.Some?
    ensures RemoveFeature(AddFeature(e), |e.value.fields.features|) == e
  {
    var f := e.value.fields.features;
    var g := AddFeature(e).value.fields.features;
    assert g[..|f|] + g[|f| + 1..] == f;
  }

  /** Writing an entry's own value back changes nothing. */
  lemma UpdateWithSameValueIsIdentity(e: Option<Draft<PlanFields>>, i: int)
    requires e.Some? && 0 <= i < |e.value.fields.features|
    ensures UpdateFeature(e, i, e.value.fields.features[i]) == e
  {
    var f := e.value.fields.features;
    assert f[i := f[i]] == f;
  }

  /** `startNewPlan`: opens an empty draft ranked last with one empty
      feature entry. */
  function StartNewPlan(sc: Screen<PlanFields>, plans: seq<Entry<PlanFields>>): (r: Screen<PlanFields>)
    ensures r.adding && r.error == sc.error && r.editing.Some?
    ensures var d := r.editing.value;
            && d.id.None? && d.order == |plans|
            && d.fields.name == "" && d.fields.price == ""
            && d.fields.features == [""] && !d.fields.highlight && !d.fields.special
  {
    sc.(editing := Some(Draft(None, |plans|, PlanFields("", "", [""], false, false))), adding := true)
  }

  /** Submitting an untouched new draft stores an empty plan ranked last:
      its single empty feature entry is dropped. */
  lemma UntouchedNewPlanHasNoFeatures(sc: Screen<PlanFields>, plans: seq<Entry<PlanFields>>,
                                      s: Store<PlanFields>, newId: Id)
    requires newId !in s
    ensures AddPlan(StartNewPlan(sc, plans), plans, s, newId, true).store[newId] ==
            Doc(|plans|, PlanFields("", "", [], false, false))
  {
  }
}

=== FILE: reorder.dfy ===
/**
 * `handleMoveOrder`, which the plan and team screens each define
 * identically, so one model serves both: find the record's
 * position in the snapshot by id, pick the neighbour above or below, and
 * exchange the two `order` values with two independent partial updates.
 */
module Reorder {
  import opened Wrappers
  import opened Collection

  datatype Direction = Up | Down

  /** One partial update sent to the store. */
  datatype Write<P> = Write(id: Id, patch: Patch<P>)

  /** `findIndex(m => m.id === id)`: the first position holding `id`, or -1. */
  function FindIndex<P>(snap: seq<Entry<P>>, id: Id): (i: int)
    ensures -1 <= i < |snap|
    ensures i == -1 <==> forall k :: 0 <= k < |snap| ==> snap[k].id != id
    ensures 0 <= i ==> snap[i].id == id && forall k :: 0 <= k < i ==> snap[k].id != id
    decreases |snap|
  {
    if |snap| == 0 then -1
    else if snap[0].id == id then 0
    else
      var j := FindIndex(snap[1..], id);
      if j == -1 then -1 else j + 1
  }

  /** The neighbour position: one before for "up", one after for "down". */
  function Neighbour(i: int, dir: Direction): int {
    if dir == Up then i - 1 else i + 1
  }

  /** The updates `handleMoveOrder(rec, dir)` issues, in order: none when
      the neighbour position falls outside the snapshot, otherwise "give
      `rec` the neighbour's order" followed by "give the neighbour `rec`'s
      order". */
  function MoveOrder<P>(snap: seq<Entry<P>>, rec: Entry<P>, dir: Direction): (ws: seq<Write<P>>)
    ensures var t := Neighbour(FindIndex(snap, rec.id), dir);
            (ws == [] <==> !(0 <= t < |snap|)) && (ws != [] ==> |ws| == 2)
  {
    var t := Neighbour(FindIndex(snap, rec.id), dir);
    if t < 0 || t >= |snap| then []
    else [Write(rec.id, SetOrder(snap[t].order)), Write(snap[t].id, SetOrder(rec.order))]
  }

  /** One awaited `updatePlan`/`updateTeamMember` call. Its `{success: false}`
      result is never inspected, so a failed write leaves the store as it was
      and the caller carries on. */
  function Apply<P>(s: Store<P>, w: Write<P>, online: bool): (r: Store<P>)
    ensures r.Keys == s.Keys
    ensures !(online && w.id in s) ==> r == s
    ensures online && w.id in s ==>
      && r[w.id].order == w.patch.order
      && (w.patch.SetOrder? ==> r[w.id].fields == s[w.id].fields)
      && (w.patch.SetAll? ==> r[w.id].fields == w.patch.fields)
      && forall k :: k in s && k != w.id ==> r[k] == s[k]
  {
    match Update(s, w.id, w.patch, online)
    case Success(s') => s'
    case Failure(_) => s
  }

  /** The writes issued one after the other; `online[k]` says whether the
      store accepted the k-th one. */
  function Run<P>(s: Store<P>, ws: seq<Write<P>>, online: seq<bool>): (r: Store<P>)
    requires |online| == |ws|
    ensures r.Keys == s.Keys
    decreases |ws|
  {
    if ws == [] then s else Run(Apply(s, ws[0], online[0]), ws[1..], online[1..])
  }

  /** Two writes run one after the other, the second on whatever the first
      left behind. */
  lemma RunTwo<P>(s: Store<P>, ws: seq<Write<P>>, online: seq<bool>)
    requires |ws| == 2 && |online| == 2
    ensures Run(s, ws, online) == Apply(Apply(s, ws[0], online[0]), ws[1], online[1])
  {
    var s1 := Apply(s, ws[0], online[0]);
    assert ws[1..][1..] == [] && online[1..][1..] == [];
    assert Run(s1, ws[1..], online[1..]) == Apply(s1, ws[1], online[1]);
  }

  /** The snapshot with the records at positions i and j exchanged, each
      position keeping its rank. */
  function Exchange<P>(snap: seq<Entry<P>>, i: nat, j: nat): (r: seq<Entry<P>>)
    requires i < |snap| && j < |snap|
    ensures |r| == |snap| && Orders(r) == Orders(snap)
    ensures r[j].id == snap[i].id && r[i].id == snap[j].id
    ensures r[j].fields == snap[i].fields && r[i].fields == snap[j].fields
    ensures forall k :: 0 <= k < |snap| && k != i && k != j ==> r[k] == snap[k]
  {
    snap[i := Entry(snap[j].id, snap[i].order, snap[j].fields)]
        [j := Entry(snap[i].id, snap[j].order, snap[i].fields)]
  }

  /** With distinct ids the position of a snapshot record is its index. */
  lemma FindIndexOfEntry<P>(snap: seq<Entry<P>>, i: nat)
    requires DistinctIds(snap) && i < |snap|
    ensures FindIndex(snap, snap[i].id) == i
  {
  }

  /** Moving the first record up or the last record down issues no update,
      and every other move issues two. */
  lemma MoveIsNoOpOnlyAtEnds<P>(s: Store<P>, snap: seq<Entry<P>>, i: nat, dir: Direction)
    requires DistinctIds(snap) && i < |snap|
    ensures MoveOrder(snap, snap[i], dir) == [] <==>
            (dir == Up && i == 0) || (dir == Down && i == |snap| - 1)
    ensures MoveOrder(snap, snap[i], dir) == [] ==> Run(s, MoveOrder(snap, snap[i], dir), []) == s
  {
  }

  /** What a completed move leaves in the store. */
  lemma MoveResult<P>(s: Store<P>, snap: seq<Entry<P>>, i: nat, dir: Direction)
    requires IsSnapshot(s, snap) && i < |snap|
    requires 0 <= Neighbour(i, dir) < |snap|
    ensures |MoveOrder(snap, snap[i], dir)| == 2
    ensures var t := Neighbour(i, dir);
            Run(s, MoveOrder(snap, snap[i], dir), [true, true]) ==
            s[snap[i].id := Doc(snap[t].order, snap[i].fields)]
             [snap[t].id := Doc(snap[i].order, snap[t].fields)]
  {
    FindIndexOfEntry(snap, i);
    var t: nat := Neighbour(i, dir);
    var ws := MoveOrder(snap, snap[i], dir);
    assert ws == [Write(snap[i].id, SetOrder(snap[t].order)), Write(snap[t].id, SetOrder(snap[i].order))];
    RunTwo(s, ws, [true, true]);
  }

  /** A completed move exchanges the two records' ranks and touches nothing
      else. */
  lemma MoveSwapsWithNeighbour<P>(s: Store<P>, snap: seq<Entry<P>>, i: nat, dir: Direction)
    requires IsSnapshot(s, snap) && i < |snap|
    requires 0 <= Neighbour(i, dir) < |snap|
    ensures |MoveOrder(snap, snap[i], dir)| == 2
    ensures var t := Neighbour(i, dir);
            var s' := Run(s, MoveOrder(snap, snap[i], dir), [true, true]);
            && s'.Keys == s.Keys
            && s'[snap[i].id] == Doc(snap[t].order, snap[i].fields)
            && s'[snap[t].id] == Doc(snap[i].order, snap[t].fields)
            && (forall k :: k in s && k != snap[i].id && k != snap[t].id ==> s'[k] == s[k])
  {
    MoveResult(s, snap, i, dir);
    assert snap[i].id != snap[Neighbour(i, dir)].id;
  }

  /** After a completed move the new store is listed by the old snapshot
      with the two records swapped: the moved record sits at the neighbour's
      position and every position keeps its rank (Exchange). */
  lemma MoveKeepsRanks<P>(s: Store<P>, snap: seq<Entry<P>>, i: nat, dir: Direction)
    requires IsSnapshot(s, snap) && i < |snap|
    requires 0 <= Neighbour(i, dir) < |snap|
    ensures IsSnapshot(Run(s, MoveOrder(snap, snap[i], dir), [true, true]),
                       Exchange(snap, i, Neighbour(i, dir)))
  {
    MoveResult(s, snap, i, dir);
    ExchangeIsSnapshot(s, snap, i, Neighbour(i, dir), Run(s, MoveOrder(snap, snap[i], dir), [true, true]));
  }

  /** A completed move leaves the multiset of ranks as it was: some ordering
      of the new store is a snapshot with exactly the old ranks, position by
      position. */
  lemma MoveKeepsOrderValues<P>(s: Store<P>, snap: seq<Entry<P>>, i: nat, dir: Direction)
    requires IsSnapshot(s, snap) && i < |snap|
    requires 0 <= Neighbour(i, dir) < |snap|
    ensures exists snap2 :: IsSnapshot(Run(s, MoveOrder(snap, snap[i], dir), [true, true]), snap2)
                            && Orders(snap2) == Orders(snap)
  {
    MoveKeepsRanks(s, snap, i, dir);
    var snap2 := Exchange(snap, i, Neighbour(i, dir));
    assert Orders(snap2) == Orders(snap);
  }

  /** A move made from an out-of-date list: the two writes carry the ranks
      the list shows, whatever the store holds by then. When both records
      are still stored, each ends up with the rank the list showed for the
      other, keeps its current fields, and nothing else changes. */
  lemma MoveOnStaleList<P>(s: Store<P>, snap: seq<Entry<P>>, i: nat, dir: Direction)
    requires DistinctIds(snap) && i < |snap|
    requires 0 <= Neighbour(i, dir) < |snap|
    requires snap[i].id in s && snap[Neighbour(i, dir)].id in s
    ensures |MoveOrder(snap, snap[i], dir)| == 2
    ensures var t := Neighbour(i, dir);
            var s' := Run(s, MoveOrder(snap, snap[i], dir), [true, true]);
            && s'.Keys == s.Keys
            && s'[snap[i].id] == Doc(snap[t].order, s[snap[i].id].fields)
            && s'[snap[t].id] == Doc(snap[i].order, s[snap[t].id].fields)
            && (forall k :: k in s && k != snap[i].id && k != snap[t].id ==> s'[k] == s[k])
  {
    FindIndexOfEntry(snap, i);
    var t: nat := Neighbour(i, dir);
    var ws := MoveOrder(snap, snap[i], dir);
    assert ws == [Write(snap[i].id, SetOrder(snap[t].order)), Write(snap[t].id, SetOrder(snap[i].order))];
    RunTwo(s, ws, [true, true]);
    assert snap[i].id != snap[t].id;
  }

  /** Moving a record past a neighbour holding the same rank writes each
      the other's equal value and leaves the store as it was, so a repeated
      rank cannot be undone with the move buttons. */
  lemma TiedMoveIsNoOp<P>(s: Store<P>, snap: seq<Entry<P>>, i: nat, dir: Direction)
    requires IsSnapshot(s, snap) && i < |snap|
    requires 0 <= Neighbour(i, dir) < |snap| && snap[i].order == snap[Neighbour(i, dir)].order
    ensures Run(s, MoveOrder(snap, snap[i], dir), [true, true]) == s
  {
    MoveResult(s, snap, i, dir);
    var t := Neighbour(i, dir);
    assert s[snap[i].id] == Doc(snap[t].order, snap[i].fields);
    assert s[snap[t].id] == Doc(snap[i].order, snap[t].fields);
  }

  /** Exchanging two records keeps ranks 0..n-1 contiguous, so a move keeps
      a contiguous collection contiguous. */
  lemma ExchangeKeepsContiguous<P>(snap: seq<Entry<P>>, i: nat, t: nat)
    requires i < |snap| && t < |snap| && Contiguous(snap)
    ensures Contiguous(Exchange(snap, i, t))
  {
  }

  lemma ExchangeIdSet<P>(snap: seq<Entry<P>>, i: nat, t: nat)
    requires i < |snap| && t < |snap|
    ensures IdSet(Exchange(snap, i, t)) == IdSet(snap)
  {
  }

  lemma ExchangeDistinctSorted<P>(snap: seq<Entry<P>>, i: nat, t: nat)
    requires DistinctIds(snap) && SortedByOrder(snap) && i < |snap| && t < |snap| && i != t
    ensures DistinctIds(Exchange(snap, i, t)) && SortedByOrder(Exchange(snap, i, t))
  {
  }

  lemma ExchangeIsSnapshot<P>(s: Store<P>, snap: seq<Entry<P>>, i: nat, t: nat, s2: Store<P>)
    requires IsSnapshot(s, snap) && i < |snap| && t < |snap| && i != t
    requires s2 == s[snap[i].id := Doc(snap[t].order, snap[i].fields)]
                    [snap[t].id := Doc(snap[i].order, snap[t].fields)]
    ensures IsSnapshot(s2, Exchange(snap, i, t))
  {
    var e := Exchange(snap, i, t);
    ExchangeIdSet(snap, i, t);
    ExchangeDistinctSorted(snap, i, t);
    assert snap[i].id != snap[t].id;
    forall k | 0 <= k < |e| ensures e[k].id in s2 && s2[e[k].id] == e[k].AsDoc() {
      assert e[k].order == Orders(e)[k] == Orders(snap)[k];
      if k != i && k != t {
        assert e[k] == snap[k];
        assert snap[k].id != snap[i].id && snap[k].id != snap[t].id;
      }
    }
  }

  /** Between the two writes the moved record and its neighbour share one
      rank, the one both hold until the second write lands. */
  lemma HalfMoveSharesOrder<P>(s: Store<P>, snap: seq<Entry<P>>, i: nat, dir: Direction)
    requires IsSnapshot(s, snap) && i < |snap|
    requires 0 <= Neighbour(i, dir) < |snap|
    ensures |MoveOrder(snap, snap[i], dir)| == 2
    ensures var t := Neighbour(i, dir);
            var s1 := Run(s, MoveOrder(snap, snap[i], dir)[..1], [true]);
            s1[snap[i].id].order == s1[snap[t].id].order == snap[t].order
  {
    FindIndexOfEntry(snap, i);
    var ws := MoveOrder(snap, snap[i], dir);
    assert ws[..1] == [ws[0]];
    assert Run(s, ws[..1], [true]) == Apply(s, ws[0], true);
  }

  /** The second write is issued whatever became of the first: when the
      first fails the neighbour still takes the moved record's rank and the
      moved record keeps it, leaving two records with one rank. */
  lemma FailedFirstWriteStillSendsSecond<P>(s: Store<P>, snap: seq<Entry<P>>, i: nat, dir: Direction)
    requires IsSnapshot(s, snap) && i < |snap|
    requires 0 <= Neighbour(i, dir) < |snap|
    ensures |MoveOrder(snap, snap[i], dir)| == 2
    ensures var t := Neighbour(i, dir);
            var s' := Run(s, MoveOrder(snap, snap[i], dir), [false, true]);
            && s'[snap[t].id] == Doc(snap[i].order, snap[t].fields)
            && s'[snap[i].id] == s[snap[i].id]
            && s'[snap[i].id].order == s'[snap[t].id].order
  {
    FindIndexOfEntry(snap, i);
    var ws := MoveOrder(snap, snap[i], dir);
    assert Apply(s, ws[0], false) == s;
    RunTwo(s, ws, [false, true]);
  }

  /** A record whose id is not in the list has index -1: moving it up is
      a no-op, while moving it down targets the first record. When the id is
      not stored (the record was deleted since the list was taken), the
      first write fails and the second still hands the first record the
      argument's rank. */
  lemma MissingIdTargetsFirst<P>(s: Store<P>, snap: seq<Entry<P>>, rec: Entry<P>)
    requires DistinctIds(snap) && |snap| > 0 && snap[0].id in s
    requires forall k :: 0 <= k < |snap| ==> snap[k].id != rec.id
    ensures MoveOrder(snap, rec, Up) == []
    ensures MoveOrder(snap, rec, Down) ==
            [Write(rec.id, SetOrder(snap[0].order)), Write(snap[0].id, SetOrder(rec.order))]
    ensures rec.id !in s ==>
            Run(s, MoveOrder(snap, rec, Down), [true, true]) ==
            s[snap[0].id := s[snap[0].id].(order := rec.order)]
  {
    var ws := MoveOrder(snap, rec, Down);
    if rec.id !in s {
      assert Apply(s, ws[0], true) == s;
      RunTwo(s, ws, [true, true]);
    }
  }
}

=== FILE: team.dfy ===
/**
 * The team management screen: creating and updating members, starting a
 * new draft, and the rank shown next to each member. Unlike plans, member
 * fields are stored exactly as typed. Reordering is `Reorder.MoveOrder`.
 */
module Team {
  import opened Wrappers
  import opened Collection
  import opened Reorder

  /** A team member's fields besides `id` and `order`; `image` is a URL. */
  datatype MemberFields = MemberFields(name: string, role: string, image: string)

  const SaveFailed := "Erro ao salvar membro da equipe"
  const UpdateFailed := "Erro ao atualizar membro da equipe"

  /** `handleAddMember`: saves the draft unchanged except `order`, which
      becomes `team.length`. */
  function AddMember(sc: Screen<MemberFields>, team: seq<Entry<MemberFields>>,
                     s: Store<MemberFields>, newId: Id, online: bool): (r: Effect<MemberFields>)
    requires newId !in s
    ensures sc.editing.None? ==> r == Effect(sc, s)
    ensures sc.editing.Some? && online ==>
      && r.store.Keys == s.Keys + {newId}
      && (forall k :: k in s ==> r.store[k] == s[k])
      && r.store[newId].order == |team|
      && r.store[newId].fields == sc.editing.value.fields
      && r.screen == Screen(None, false, None)
    ensures sc.editing.Some? && !online ==> r == Effect(sc.(error := Some(SaveFailed)), s)
  {
    match sc.editing
    case None => Effect(sc, s)
    case Some(d) =>
      match Add(s, newId, Doc(|team|, d.fields), online)
      case Success(s') => Effect(Screen(None, false, None), s')
      case Failure(_) => Effect(sc.(error := Some(SaveFailed)), s)
  }

  /** `handleUpdateMember`: without a draft id nothing is sent; otherwise all
      draft fields but `id` overwrite that document. */
  function UpdateMember(sc: Screen<MemberFields>, s: Store<MemberFields>, online: bool): (r: Effect<MemberFields>)
    ensures sc.editing.None? || sc.editing.value.id.None? ==> r == Effect(sc, s)
    ensures r.store.Keys == s.Keys
    ensures sc.editing.Some? && sc.editing.value.id.Some? ==>
      var d := sc.editing.value;
      if online && d.id.value in s then
        && r.store[d.id.value] == Doc(d.order, d.fields)
        && (forall k :: k in s && k != d.id.value ==> r.store[k] == s[k])
        && r.screen == sc.(editing := None, error := None)
      else
        r == Effect(sc.(error := Some(UpdateFailed)), s)
  {
    match sc.editing
    case None => Effect(sc, s)
    case Some(d) =>
      match d.id
      case None => Effect(sc, s)
      case Some(id) =>
        match Update(s, id, SetAll(d.order, d.fields), online)
        case Success(s') => Effect(sc.(editing := None, error := None), s')
        case Failure(_) => Effect(sc.(error := Some(UpdateFailed)), s)
  }

  /** `startNewMember`: an empty draft ranked last. */
  function StartNewMember(sc: Screen<MemberFields>, team: seq<Entry<MemberFields>>): (r: Screen<MemberFields>)
    ensures r.adding && r.error == sc.error && r.editing.Some?
    ensures var d := r.editing.value;
            d.id.None? && d.order == |team| && d.fields == MemberFields("", "", "")
  {
    sc.(editing := Some(Draft(None, |team|, MemberFields("", "", ""))), adding := true)
  }

  /** Saving an edit whose draft still holds the member's stored rank
      changes only that member's card: the list keeps its order and, on a
      contiguous team, the shown ranks stay 1..n. */
  lemma UpdateWithStoredOrderKeepsRanks(s: Store<MemberFields>, team: seq<Entry<MemberFields>>,
                                        i: nat, f: MemberFields)
    requires IsSnapshot(s, team) && i < |team|
    ensures var sc := Screen(Some(Draft(Some(team[i].id), team[i].order, f)), false, None);
            var team' := team[i := Entry(team[i].id, team[i].order, f)];
            && IsSnapshot(UpdateMember(sc, s, true).store, team')
            && (Contiguous(team) ==> Contiguous(team'))
  {
    UpdateInPlaceKeepsSnapshot(s, team, i, f);
  }

  /** Saving an edit opened before a move puts the member's old rank back:
      after the second member moves up, saving its stale draft leaves it
      sharing that rank with the member it displaced. */
  lemma StaleDraftOrderDuplicates(s: Store<MemberFields>, team: seq<Entry<MemberFields>>)
    requires IsSnapshot(s, team) && |team| >= 2
    ensures var moved := Run(s, MoveOrder(team, team[1], Up), [true, true]);
            var draft := Draft(Some(team[1].id), team[1].order, team[1].fields);
            var after := UpdateMember(Screen(Some(draft), false, None), moved, true).store;
            after[team[0].id].order == after[team[1].id].order == team[1].order
  {
    MoveSwapsWithNeighbour(s, team, 1, Up);
  }

  /** Saving a new draft nobody typed into stores an empty member ranked
      last. */
  lemma UntouchedNewMemberIsEmpty(sc: Screen<MemberFields>, team: seq<Entry<MemberFields>>,
                                  s: Store<MemberFields>, newId: Id)
    requires newId !in s
    ensures AddMember(StartNewMember(sc, team), team, s, newId, true).store[newId] ==
            Doc(|team|, MemberFields("", "", ""))
  {
  }

  /** "Ordem: {member.order + 1}": the one-based rank shown on a card. */
  function Rank(e: Entry<MemberFields>): int {
    e.order + 1
  }

  /** On a contiguous collection the rank shown is the card's one-based
      position in the list. */
  lemma RankIsPosition(team: seq<Entry<MemberFields>>, i: nat)
    requires Contiguous(team) && i < |team|
    ensures Rank(team[i]) == i + 1
    ensures forall j :: 0 <= j < |team| && j != i ==> Rank(team[j]) != Rank(team[i])
  {
  }

  /** Members created one at a time on an initially empty team, with no
      deletions in between, are ranked 1, 2, 3, ...: each new member is
      appended to the snapshot with the next rank. */
  lemma AddedMemberRankedLast(sc: Screen<MemberFields>, team: seq<Entry<MemberFields>>,
                              s: Store<MemberFields>, newId: Id)
    requires IsSnapshot(s, team) && Contiguous(team)
    requires newId !in s && sc.editing.Some?
    ensures var s' := AddMember(sc, team, s, newId, true).store;
            var team' := team + [Entry(newId, |team|, sc.editing.value.fields)];
            IsSnapshot(s', team') && Contiguous(team') && Rank(team'[|team|]) == |team'|
  {
    AddAtLengthAppends(s, team, newId, sc.editing.value.fields);
  }
}

=== FILE: text.dfy ===
/**
 * The blank-string rule the plan screen applies to feature lists:
 * an entry is dropped when `f.trim() !== ''` is false.
 */
module Text {

  /** The code points ECMAScript's String.prototype.trim removes: the WhiteSpace
      and LineTerminator productions (section 12.2 and 12.3 of ECMA-262), with
      the space separators of Unicode general category Zs spelt out. */
  predicate IsTrimmable(c: char) {
    || c == '\t' || c == '\U{000B}' || c == '\U{000C}' || c == ' '
    || c == '\U{00A0}' || c == '\U{FEFF}' || c == '\U{1680}'
    || ('\U{2000}' <= c <= '\U{200A}')
    || c == '\U{202F}' || c == '\U{205F}' || c == '\U{3000}'
    || c == '\n' || c == '\r' || c == '\U{2028}' || c == '\U{2029}'
  }

  /** Drops leading trimmable characters. */
  function TrimStart(s: string): (r: string)
    ensures |r| <= |s| && r == s[|s| - |r|..]
    ensures r == [] || !IsTrimmable(r[0])
    ensures forall k :: 0 <= k < |s| - |r| ==> IsTrimmable(s[k])
  {
    if |s| > 0 && IsTrimmable(s[0]) then TrimStart(s[1..]) else s
  }

  /** Drops trailing trimmable characters. */
  function TrimEnd(s: string): (r: string)
    ensures |r| <= |s| && r == s[..|r|]
    ensures r == [] || !IsTrimmable(r[|r| - 1])
    ensures forall k :: |r| <= k < |s| ==> IsTrimmable(s[k])
  {
    if |s| > 0 && IsTrimmable(s[|s| - 1]) then TrimEnd(s[..|s| - 1]) else s
  }

  /** String.prototype.trim: TrimStart's result with its trailing trimmable
      characters cut off (TrimCutsBlankSuffix), so the result begins and
      ends with a kept character. */
  function Trim(s: string): (r: string)
    ensures |r| <= |TrimStart(s)| <= |s|
    ensures r == [] || (!IsTrimmable(r[0]) && !IsTrimmable(r[|r| - 1]))
  {
    TrimKeepsEnds(s);
    TrimEnd(TrimStart(s))
  }

  /** Trim keeps a prefix of TrimStart's result and what it cuts is blank;
      with TrimStart's contract, the result is the middle of `s` between a
      blank prefix and a blank suffix. */
  lemma TrimCutsBlankSuffix(s: string)
    ensures Trim(s) == TrimStart(s)[..|Trim(s)|]
    ensures IsBlank(TrimStart(s)[|Trim(s)|..])
  {
    EndCutIsBlank(TrimStart(s));
  }

  lemma EndCutIsBlank(t: string)
    ensures IsBlank(t[|TrimEnd(t)|..])
  {
    var n := |TrimEnd(t)|;
    var q := t[n..];
    forall k | 0 <= k < |q| ensures IsTrimmable(q[k]) {
      assert q[k] == t[n + k];
    }
  }

  lemma TrimKeepsEnds(s: string)
    ensures var r := TrimEnd(TrimStart(s));
            r == [] || (!IsTrimmable(r[0]) && !IsTrimmable(r[|r| - 1]))
  {
    var t := TrimStart(s);
    var r := TrimEnd(t);
    assert r == t[..|r|];
    if r != [] { assert r[0] == t[0]; }
  }

  /** A string made only of trimmable characters (the empty string included). */
  predicate IsBlank(s: string) {
    forall k :: 0 <= k < |s| ==> IsTrimmable(s[k])
  }

  /** The feature-list test `f.trim() !== ''` fails exactly on blank strings. */
  lemma TrimEmptyIffBlank(s: string)
    ensures Trim(s) == "" <==> IsBlank(s)
  {
  }

  predicate NoBlank(fs: seq<string>) {
    forall k :: 0 <= k < |fs| ==> !IsBlank(fs[k])
  }

  /** `features.filter(f => f.trim() !== '')`, with the test read through
      TrimEmptyIffBlank. */
  function FilterBlank(fs: seq<string>): (r: seq<string>)
    ensures |r| <= |fs|
    ensures NoBlank(r)
  {
    if fs == [] then []
    else
      (if IsBlank(fs[0]) then [] else [fs[0]]) + FilterBlank(fs[1..])
  }

  /** Every non-blank entry survives with its multiplicity; no blank one does. */
  lemma {:induction false} FilterBlankCounts(fs: seq<string>, x: string)
    ensures multiset(FilterBlank(fs))[x] == if IsBlank(x) then 0 else multiset(fs)[x]
    decreases |fs|
  {
    if fs != [] {
      assert fs == [fs[0]] + fs[1..];
      FilterBlankCounts(fs[1..], x);
    }
  }

  /** The filter works entry by entry, so it keeps the surviving entries in
      their original relative order. */
  lemma {:induction false} FilterBlankAppend(a: seq<string>, b: seq<string>)
    ensures FilterBlank(a + b) == FilterBlank(a) + FilterBlank(b)
    decreases |a|
  {
    if a == [] {
      assert a + b == b;
    } else {
      assert (a + b)[1..] == a[1..] + b;
      FilterBlankAppend(a[1..], b);
    }
  }

  /** Filtering twice is the same as filtering once. */
  lemma {:induction false} FilterBlankIdempotent(fs: seq<string>)
    ensures FilterBlank(FilterBlank(fs)) == FilterBlank(fs)
    decreases |fs|
  {
    if fs != [] {
      var head := if IsBlank(fs[0]) then [] else [fs[0]];
      FilterBlankAppend(head, FilterBlank(fs[1..]));
      FilterBlankIdempotent(fs[1..]);
    }
  }

  /** The filter leaves a list alone exactly when the list has no blank entry. */
  lemma {:induction false} FilterBlankKeepsAllIff(fs: seq<string>)
    ensures FilterBlank(fs) == fs <==> NoBlank(fs)
    decreases |fs|
  {
    if fs != [] {
      FilterBlankKeepsAllIff(fs[1..]);
      if IsBlank(fs[0]) {
        assert |FilterBlank(fs)| < |fs|;
      } else {
        assert NoBlank(fs) <==> NoBlank(fs[1..]) by {
          if NoBlank(fs[1..]) {
            forall k | 0 <= k < |fs| ensures !IsBlank(fs[k]) {
              if k > 0 { assert fs[k] == fs[1..][k - 1]; }
            }
          }
        }
      }
    }
  }

  /** A list with an empty and a spaces-only entry keeps only the other two,
      in order. */
  lemma FilterBlankExample()
    ensures FilterBlank(["A", "", "  ", "B"]) == ["A", "B"]
  {
    assert !IsTrimmable('A') && !IsTrimmable('B') && IsTrimmable(' ');
    assert "A"[0] == 'A' && "B"[0] == 'B';
    assert FilterBlank(["A"]) == ["A"];
    assert FilterBlank([""]) == [];
    assert FilterBlank(["  "]) == [];
    assert FilterBlank(["B"]) == ["B"];
    FilterBlankAppend(["A"], [""]);
    FilterBlankAppend(["A", ""], ["  "]);
    FilterBlankAppend(["A", "", "  "], ["B"]);
  }
}

=== FILE: wrappers.dfy ===
/** Failure-carrying wrappers shared by the rest of the model. */
module Wrappers {

  /** An optional value: JavaScript's `undefined`/`null` versus a present value. */
  datatype Option<+T> = None | Some(value: T)

  /** The outcome of a call that can fail with an error of type E. */
  datatype Result<+R, +E> = Success(value: R) | Failure(error: E)
}
